=== FILE: README.md ===
# Black-Scholes finite-difference solver: the verified core

This project models, in Dafny, the three pieces of the Black-Scholes
finite-difference solver that carry behaviour of their own:

- **The Thomas algorithm** (`ThomasAlgo`), the direct O(n) solver for a
  tridiagonal system given as sub-diagonal `l`, diagonal `d`, super-diagonal
  `u` and right-hand side `r`. It runs forward elimination into the scratch
  vectors `c_prime` and `r_prime`, then back substitution into `x`, with no
  pivoting and no check for a zero pivot. Module `Tridiagonal`
  (`tridiagonal.dfy`). The two passes are the methods `ForwardEliminate`
  and `BackSubstitute`, each over local arrays of the source's sizes
  (`n - 1` entries for `c_prime`, `n` for `r_prime` and `x`); `ThomasAlgo`
  runs one after the other. Arithmetic is over exact reals. The recurrences
  of elimination are the specification functions `Pivot`, `CPrime` and
  `RPrime`. `Solves` states the system row by row:
  `l[i-1]·x[i-1] + d[i]·x[i] + u[i]·x[i+1] = r[i]`, with the terms outside
  the matrix dropped in the first and last rows. `NonSingular` says that no
  pivot is zero, `d[0]` included.
- **The option payoffs** `Call::payoff` and `Put::payoff`, as one function
  `Payoff` over a datatype `Option = Call(K) | Put(K)` that carries the
  strike. Module `Payoffs` (`payoff.dfy`).
- **The grid set-up** of the `DifferenceFinie` constructor and its getters,
  as a class whose fields are constants fixed by the constructor. Module
  `Grid` (`grid.dfy`).

The solver's inputs are `const` references in the source, so they become
sequences, which cannot be modified; its result is returned as a sequence.

Two things the code does, and does not check, shape the preconditions:

- The `DifferenceFinie` constructor checks nothing about its grids and
  copies both grids whole (CISSE_DAMI_projet_bs/DifferenceFinie.hpp:48) but
  indexes only points 0 and 1 of each (CISSE_DAMI_projet_bs/DifferenceFinie.hpp:50-51).
  The model therefore requires two points per grid. It does not require
  the grids to be increasing, and `N`, `M` are not tied to the grid
  lengths.
- `ThomasAlgo` reads only the first `n - 1` entries of `l` and `u`
  (CISSE_DAMI_projet_bs/CrankNicholson.cpp:25-36). `Shaped` requires at
  least that many, and `SolutionReadsOnlyBand` proves that nothing outside
  the band affects the result.

## Model

| member | source | states |
|---|---|---|
| `Tridiagonal.ThomasAlgo` | CISSE_DAMI_projet_bs/CrankNicholson.cpp:18-47 | Needs at least two rows and every index in range (`Shaped`), and a non-zero pivot in every row (`NonSingular`). Returns `x` of length `n`, the length of `r`, that solves the tridiagonal system in every row (`Solves`). `x` also satisfies the back-substitution equations `x[n-1] = r'[n-1]` and `x[i] + c'[i]·x[i+1] = r'[i]` (`Eliminated`). |
| `Tridiagonal.ForwardEliminate` | CISSE_DAMI_projet_bs/CrankNicholson.cpp:20-37 | Fills `c_prime` (n - 1 entries) and `r_prime` (n entries) in bounds. Row 0 is normalised by `d[0]`. Each later row `i` gets `c'[i] = u[i]/temp` (every row but the last) and `r'[i] = (r[i] - l[i-1]·r'[i-1])/temp`, where `temp = d[i] - l[i-1]·c'[i-1]`. |
| `Tridiagonal.BackSubstitute` | CISSE_DAMI_projet_bs/CrankNicholson.cpp:39-46 | From the eliminated coefficients it returns `x` with `x[n-1] = r'[n-1]` and `x[i] = r'[i] - c'[i]·x[i+1]` for `i` from `n-2` down to `0`, i.e. a solution of the eliminated upper-bidiagonal system. |
| `Tridiagonal.EliminationPreservesSolutions` | CISSE_DAMI_projet_bs/CrankNicholson.cpp:24-45 | When no pivot is zero, forward elimination keeps the solution set in both directions: `x` solves the tridiagonal system exactly when it solves the eliminated system that back substitution reads. |
| `Tridiagonal.RowStep` | CISSE_DAMI_projet_bs/CrankNicholson.cpp:29-37 | One row of elimination: once row `i-1` is eliminated, original row `i` holds exactly when eliminated row `i` does, given that pivot `i` is non-zero. |
| `Tridiagonal.SolutionUnique` | CISSE_DAMI_projet_bs/CrankNicholson.cpp:9-15 | When no pivot is zero, the system has at most one solution, so the returned vector is the solution the doc comment promises. |
| `Tridiagonal.SolutionReadsOnlyBand` | CISSE_DAMI_projet_bs/CrankNicholson.cpp:29-36 | Two systems that agree on `l[0..n-2]`, `d[0..n-1]`, `u[0..n-2]` and `r` are non-singular together and have the same solution. Entries outside the band, `u[n-1]` included, play no part. |
| `Tridiagonal.DominantIsNonSingular` | CISSE_DAMI_projet_bs/CrankNicholson.cpp:25-36 | A strictly diagonally dominant system never divides by a zero pivot, so it meets the solver's precondition. |
| `Payoffs.Payoff` | CISSE_DAMI_projet_bs/Option.cpp:13-34 | The payoff is never negative, is at least the exercise gain (`S - K` for a call, `K - S` for a put), and is either that gain or zero. |
| `Payoffs.ExercisedExactly` | CISSE_DAMI_projet_bs/Option.cpp:15-29 | The call pays something exactly when `S > K`, and the put exactly when `K > S`. |
| `Payoffs.AtTheMoneyPaysNothing` | CISSE_DAMI_projet_bs/Option.cpp:15-29 | At `S = K` both payoffs are exactly zero, because both comparisons are strict. |
| `Payoffs.CallPutParity` | CISSE_DAMI_projet_bs/Option.cpp:13-34 | For every `S`, the call payoff minus the put payoff with the same strike is `S - K`. |
| `Payoffs.PayoffMonotone` | CISSE_DAMI_projet_bs/Option.cpp:13-34 | The call payoff is non-decreasing in `S`; the put payoff is non-increasing in `S`. |
| `Grid.DifferenceFinie.constructor` | CISSE_DAMI_projet_bs/DifferenceFinie.hpp:47-52 | Needs two points in each grid. Stores `N`, `M` and both grids unchanged, with `dt = t[1] - t[0]` and `dS = S[1] - S[0]`. |
| `Grid.DifferenceFinie.GetN` | CISSE_DAMI_projet_bs/DifferenceFinie.hpp:70 | Returns the stored number of points in space. It has no contract of its own; `Grid.BuildGrid` proves that it returns the constructor's `N`. |
| `Grid.DifferenceFinie.GetM` | CISSE_DAMI_projet_bs/DifferenceFinie.hpp:76 | Returns the stored number of points in time. It has no contract of its own; `Grid.BuildGrid` proves that it returns the constructor's `M`. |
| `Grid.DifferenceFinie.GetL` | CISSE_DAMI_projet_bs/DifferenceFinie.hpp:82 | Returns the price grid, whose first step is the stored `dS`. |
| `Grid.DifferenceFinie.GetT` | CISSE_DAMI_projet_bs/DifferenceFinie.hpp:88 | Returns the time grid, whose first step is the stored `dt`. |
| `Grid.BuildGrid` | CISSE_DAMI_projet_bs/DifferenceFinie.hpp:47-88 | A grid constructed from `(N, M, S, t)` reads back `getN() = N`, `getM() = M`, `getL() = S` and `getT() = t`, with steps `t[1] - t[0]` and `S[1] - S[0]`. |

## Left out

- `Crank_Nicholson::solve` (CISSE_DAMI_projet_bs/CrankNicholson.cpp:53-66): unfinished in the source. It allocates the three diagonals, never fills them and returns nothing, so there is no behaviour to model.
- `Implicite::solve` (CISSE_DAMI_projet_bs/Implicite.cpp:14-18): a stub that returns an empty surface. No time stepping, boundary injection or θ blend exists in the code.
- `lowerBoundary` and `upperBoundary` (CISSE_DAMI_projet_bs/Option.hpp): declared in Option.hpp, but Option.cpp, its only implementation file, defines `payoff` and nothing else, so there is no formula to model.
- The PDE holder (CISSE_DAMI_projet_bs/EDP.hpp), the asset parameters and the maturity `T_` (CISSE_DAMI_projet_bs/Option.hpp), and `getEDP`: they hold data and have no behaviour. The grid class does not model its reference to the PDE.
- The SDL2 window and rendering code (CISSE_DAMI_projet_bs/sdl.cpp, sdl.hpp) and the entry point (CISSE_DAMI_projet_bs/main.cpp): user interface, printing and foreign-library calls.
- Virtual dispatch over the `Option` and `DifferenceFinie` hierarchies: the two option kinds are a datatype, and only the base class of the schemes is modelled.
- Floating point: `double` arithmetic is modelled as exact reals. Rounding, NaN and infinity from a zero pivot, stability and convergence are not modelled.
- `Tridiagonal.ThomasAlgo`: requires at least two rows. With `n = 0`, `n - 1` becomes the largest `size_t` and the `c_prime` constructor at CISSE_DAMI_projet_bs/CrankNicholson.cpp:21 throws `std::length_error`; the model leaves out this error path. With `n = 1`, `c_prime` has no entries and the write to `c_prime[0]` is out of bounds, which is undefined behaviour.
- `Tridiagonal.ThomasAlgo`: a zero pivot is excluded by the precondition `NonSingular`, because the source divides without checking. `Pivot`, `CPrime` and `RPrime` give 0 for a zero pivot only so that they are total; under `NonSingular` that case never arises.
- `Tridiagonal.ThomasAlgo`: the narrowing of `r.size()` to `int` at CISSE_DAMI_projet_bs/CrankNicholson.cpp:20 is not modelled, so systems of 2^31 rows or more are out of scope. For them the source either overflows `n - 1` at line 21, which is undefined behaviour, or truncates `n` and returns a shorter vector that solves only a leading block. The model's row count is the unbounded length of `r`.
- The C++ `int` width of `N` and `M` in the grid class is not modelled: those counts are only stored and read back, never computed with.

=== FILE: grid.dfy ===
/** The discretisation a finite-difference scheme owns: the space grid of
    underlying prices, the time grid, their point counts and the step
    sizes derived from the first two points of each grid. The fields are
    set once, by the constructor, and never change afterwards. */
module Grid {

  class DifferenceFinie {
    /** Number of points in space, as given by the caller. */
    const N: int
    /** Number of points in time, as given by the caller. */
    const M: int
    /** Grid of underlying prices. */
    const L: seq<real>
    /** Grid of times. */
    const t: seq<real>
    /** Time step, taken from the first two time points. */
    const dt: real
    /** Price step, taken from the first two price points. */
    const dS: real

    /** The step sizes agree with the grids they were read from. */
    ghost predicate Valid()
    {
      |L| >= 2 && |t| >= 2 && dt == t[1] - t[0] && dS == L[1] - L[0]
    }

    /** Copies both grids and the point counts, then derives dt and dS.
        Points 0 and 1 of each grid are read, so each needs two points. */
    constructor (N: int, M: int, S: seq<real>, t: seq<real>)
      requires |S| >= 2 && |t| >= 2
      ensures Valid()
      ensures this.N == N && this.M == M && this.L == S && this.t == t
      ensures dt == t[1] - t[0] && dS == S[1] - S[0]
    {
      this.N := N;
      this.M := M;
      this.L := S;
      this.t := t;
      dt := t[1] - t[0];
      dS := S[1] - S[0];
    }

    /** The number of points in space. */
    function GetN(): (n: int)
    {
      N
    }

    /** The number of points in time. */
    function GetM(): (m: int)
    {
      M
    }

    /** The price grid; its first step is dS. */
    function GetL(): (s: seq<real>)
      requires Valid()
      ensures |s| >= 2 && s[1] - s[0] == dS
    {
      L
    }

    /** The time grid; its first step is dt. */
    function GetT(): (s: seq<real>)
      requires Valid()
      ensures |s| >= 2 && s[1] - s[0] == dt
    {
      t
    }
  }

  /** A grid built from (N, M, S, t) reads back exactly what it was given:
      the getters return N, M, S and t, and the steps are those of the
      first two points of each grid. */
  method BuildGrid(N: int, M: int, S: seq<real>, t: seq<real>)
    returns (n: int, m: int, prices: seq<real>, times: seq<real>, dt: real, dS: real)
    requires |S| >= 2 && |t| >= 2
    ensures n == N && m == M && prices == S && times == t
    ensures dt == t[1] - t[0] && dS == S[1] - S[0]
  {
    var g := new DifferenceFinie(N, M, S, t);
    n, m, prices, times := g.GetN(), g.GetM(), g.GetL(), g.GetT();
    dt, dS := g.dt, g.dS;
  }
}

=== FILE: payoff.dfy ===
/** Payoffs at maturity of the two European options the solver prices: a
    call and a put, each carrying its strike K. */
module Payoffs {

  datatype Option = Call(K: real) | Put(K: real)

  /** The option's value at maturity for an underlying price S: the call
      pays S - K when S exceeds the strike, the put K - S when the strike
      exceeds S, and otherwise each pays nothing. The result is the larger
      of zero and the exercise gain, so it is never negative. */
  function Payoff(o: Option, S: real): (v: real)
    ensures v >= 0.0
    ensures o.Call? ==> v >= S - o.K && (v == 0.0 || v == S - o.K)
    ensures o.Put? ==> v >= o.K - S && (v == 0.0 || v == o.K - S)
  {
    match o
    case Call(K) => if S - K > 0.0 then S - K else 0.0
    case Put(K) => if K - S > 0.0 then K - S else 0.0
  }

  /** The call is exercised exactly when S > K and the put exactly when
      K > S; the two comparisons are strict. */
  lemma ExercisedExactly(K: real, S: real)
    ensures Payoff(Call(K), S) > 0.0 <==> S > K
    ensures Payoff(Put(K), S) > 0.0 <==> K > S
  {
  }

  /** At the money (S == K) neither option pays anything. */
  lemma AtTheMoneyPaysNothing(K: real)
    ensures Payoff(Call(K), K) == 0.0 && Payoff(Put(K), K) == 0.0
  {
  }

  /** Call minus put is the forward payoff S - K, for every S. */
  lemma CallPutParity(K: real, S: real)
    ensures Payoff(Call(K), S) - Payoff(Put(K), S) == S - K
  {
  }

  /** The call's payoff never decreases as S rises; the put's never increases. */
  lemma PayoffMonotone(K: real, S: real, S': real)
    requires S <= S'
    ensures Payoff(Call(K), S) <= Payoff(Call(K), S')
    ensures Payoff(Put(K), S) >= Payoff(Put(K), S')
  {
  }
}

=== FILE: tridiagonal.dfy ===
/** The Thomas algorithm: a direct solver for a tridiagonal linear system
    (sub-diagonal l, diagonal d, super-diagonal u, right-hand side r) by
    forward elimination and back substitution, without pivoting.
    Arithmetic is over exact reals. */
module Tridiagonal {

  /** The sizes under which every index the solver reads or writes is in
      range: n = |r| rows, at least two of them, n diagonal entries and
      n - 1 entries of each off-diagonal (u[n - 1] is never read). */
  predicate Shaped(l: seq<real>, d: seq<real>, u: seq<real>, r: seq<real>)
  {
    |r| >= 2 && |d| >= |r| && |l| >= |r| - 1 && |u| >= |r| - 1
  }

  /** Row i of the system: l[i-1]*x[i-1] + d[i]*x[i] + u[i]*x[i+1] == r[i],
      with the terms that fall outside the matrix dropped in the first and
      last rows. */
  predicate RowHolds(l: seq<real>, d: seq<real>, u: seq<real>, r: seq<real>, x: seq<real>, i: nat)
    requires Shaped(l, d, u, r) && |x| == |r| && i < |r|
  {
    var lower := if i == 0 then 0.0 else l[i - 1] * x[i - 1];
    var upper := if i == |r| - 1 then 0.0 else u[i] * x[i + 1];
    lower + d[i] * x[i] + upper == r[i]
  }

  /** x is a solution of the tridiagonal system (l, d, u, r). */
  predicate Solves(l: seq<real>, d: seq<real>, u: seq<real>, r: seq<real>, x: seq<real>)
    requires Shaped(l, d, u, r)
  {
    |x| == |r| && forall i :: 0 <= i < |r| ==> RowHolds(l, d, u, r, x, i)
  }

  /** The pivot of row i during forward elimination: d[0] for the first row,
      d[i] - l[i-1] * c'[i-1] afterwards. */
  function Pivot(l: seq<real>, d: seq<real>, u: seq<real>, r: seq<real>, i: nat): real
    requires Shaped(l, d, u, r) && i < |r|
    decreases i, 0
  {
    if i == 0 then d[0] else d[i] - l[i - 1] * CPrime(l, d, u, r, i - 1)
  }

  /** The eliminated super-diagonal c'[i] = u[i] / pivot, for every row but
      the last. The value chosen for a zero pivot only makes the function
      total; NonSingular rules that case out wherever it is used. */
  function CPrime(l: seq<real>, d: seq<real>, u: seq<real>, r: seq<real>, i: nat): real
    requires Shaped(l, d, u, r) && i < |r| - 1
    decreases i, 1
  {
    var p := Pivot(l, d, u, r, i);
    if p == 0.0 then 0.0 else u[i] / p
  }

  /** The eliminated right-hand side: r'[0] = r[0] / d[0] and
      r'[i] = (r[i] - l[i-1] * r'[i-1]) / pivot. */
  function RPrime(l: seq<real>, d: seq<real>, u: seq<real>, r: seq<real>, i: nat): real
    requires Shaped(l, d, u, r) && i < |r|
  {
    var p := Pivot(l, d, u, r, i);
    var numerator := if i == 0 then r[0] else r[i] - l[i - 1] * RPrime(l, d, u, r, i - 1);
    if p == 0.0 then 0.0 else numerator / p
  }

  /** Elimination in this order meets no zero pivot (d[0] included). */
  predicate NonSingular(l: seq<real>, d: seq<real>, u: seq<real>, r: seq<real>)
    requires Shaped(l, d, u, r)
  {
    forall i :: 0 <= i < |r| ==> Pivot(l, d, u, r, i) != 0.0
  }

  /** Row i of the upper-bidiagonal system left by forward elimination:
      x[i] + c'[i] * x[i+1] == r'[i], and x[n-1] == r'[n-1] for the last. */
  predicate EliminatedRow(l: seq<real>, d: seq<real>, u: seq<real>, r: seq<real>, x: seq<real>, i: nat)
    requires Shaped(l, d, u, r) && |x| == |r| && i < |r|
  {
    if i < |r| - 1 then x[i] + CPrime(l, d, u, r, i) * x[i + 1] == RPrime(l, d, u, r, i)
    else x[i] == RPrime(l, d, u, r, i)
  }

  predicate Eliminated(l: seq<real>, d: seq<real>, u: seq<real>, r: seq<real>, x: seq<real>)
    requires Shaped(l, d, u, r)
  {
    |x| == |r| && forall i :: 0 <= i < |r| ==> EliminatedRow(l, d, u, r, x, i)
  }

  /** The arithmetic of one elimination step, on plain reals: given
      xPrev == rhoPrev - cPrev * xi from the previous eliminated row, the
      row lo*xPrev + di*xi + ui*xNext == ri holds exactly when
      xi + cNew*xNext == rhoNew does, where p is the pivot. */
  lemma EliminateRow(lo: real, di: real, ui: real, ri: real, cPrev: real, rhoPrev: real,
                     xPrev: real, xi: real, xNext: real, p: real, cNew: real, rhoNew: real)
    requires p == di - lo * cPrev && p != 0.0
    requires xPrev == rhoPrev - cPrev * xi
    requires cNew == ui / p && rhoNew == (ri - lo * rhoPrev) / p
    ensures lo * xPrev + di * xi + ui * xNext == ri <==> xi + cNew * xNext == rhoNew
  {
    assert lo * xPrev + di * xi + ui * xNext == p * (xi + cNew * xNext) + lo * rhoPrev;
    assert (ri - lo * rhoPrev) / p * p == ri - lo * rhoPrev;
  }

  /** One step of elimination: once the previous row has been eliminated,
      row i of the original system holds exactly when row i of the
      eliminated system does. */
  lemma {:induction false} RowStep(l: seq<real>, d: seq<real>, u: seq<real>, r: seq<real>, x: seq<real>, i: nat)
    requires Shaped(l, d, u, r) && |x| == |r| && i < |r|
    requires Pivot(l, d, u, r, i) != 0.0
    requires i > 0 ==> EliminatedRow(l, d, u, r, x, i - 1)
    ensures RowHolds(l, d, u, r, x, i) <==> EliminatedRow(l, d, u, r, x, i)
  {
    if i == 0 {
      FirstRowStep(l, d, u, r, x);
    } else if i < |r| - 1 {
      InteriorRowStep(l, d, u, r, x, i);
    } else {
      LastRowStep(l, d, u, r, x);
    }
  }

  /** Row 0 divided by its pivot d[0] is eliminated row 0. */
  lemma FirstRowStep(l: seq<real>, d: seq<real>, u: seq<real>, r: seq<real>, x: seq<real>)
    requires Shaped(l, d, u, r) && |x| == |r|
    requires Pivot(l, d, u, r, 0) != 0.0
    ensures RowHolds(l, d, u, r, x, 0) <==> EliminatedRow(l, d, u, r, x, 0)
  {
    EliminateRow(0.0, d[0], u[0], r[0], 0.0, 0.0, 0.0, x[0], x[1],
                 Pivot(l, d, u, r, 0), CPrime(l, d, u, r, 0), RPrime(l, d, u, r, 0));
  }

  /** An interior row minus l[i-1] times eliminated row i-1, divided by
      pivot i, is eliminated row i. */
  lemma InteriorRowStep(l: seq<real>, d: seq<real>, u: seq<real>, r: seq<real>, x: seq<real>, i: nat)
    requires Shaped(l, d, u, r) && |x| == |r| && 0 < i < |r| - 1
    requires Pivot(l, d, u, r, i) != 0.0
    requires EliminatedRow(l, d, u, r, x, i - 1)
    ensures RowHolds(l, d, u, r, x, i) <==> EliminatedRow(l, d, u, r, x, i)
  {
    EliminateRow(l[i - 1], d[i], u[i], r[i], CPrime(l, d, u, r, i - 1), RPrime(l, d, u, r, i - 1),
                 x[i - 1], x[i], x[i + 1], Pivot(l, d, u, r, i), CPrime(l, d, u, r, i), RPrime(l, d, u, r, i));
  }

  /** The last row, which has no super-diagonal term, minus l[i-1] times
      eliminated row i-1, divided by its pivot, is the last eliminated row. */
  lemma LastRowStep(l: seq<real>, d: seq<real>, u: seq<real>, r: seq<real>, x: seq<real>)
    requires Shaped(l, d, u, r) && |x| == |r|
    requires Pivot(l, d, u, r, |r| - 1) != 0.0
    requires EliminatedRow(l, d, u, r, x, |r| - 2)
    ensures RowHolds(l, d, u, r, x, |r| - 1) <==> EliminatedRow(l, d, u, r, x, |r| - 1)
  {
    var i := |r| - 1;
    EliminateRow(l[i - 1], d[i], 0.0, r[i], CPrime(l, d, u, r, i - 1), RPrime(l, d, u, r, i - 1),
                 x[i - 1], x[i], 0.0, Pivot(l, d, u, r, i), 0.0, RPrime(l, d, u, r, i));
  }

  /** Forward elimination turns a solution's first k rows into the first k
      eliminated rows. */
  lemma {:induction false} ForwardRows(l: seq<real>, d: seq<real>, u: seq<real>, r: seq<real>, x: seq<real>, k: nat)
    requires Shaped(l, d, u, r) && NonSingular(l, d, u, r) && k <= |r|
    requires Solves(l, d, u, r, x)
    ensures forall i :: 0 <= i < k ==> EliminatedRow(l, d, u, r, x, i)
  {
    if k > 0 {
      ForwardRows(l, d, u, r, x, k - 1);
      assert RowHolds(l, d, u, r, x, k - 1);
      RowStep(l, d, u, r, x, k - 1);
    }
  }

  /** Gaussian elimination keeps the solution set: under non-zero pivots, x
      solves the tridiagonal system exactly when it solves the eliminated
      upper-bidiagonal one. */
  lemma EliminationPreservesSolutions(l: seq<real>, d: seq<real>, u: seq<real>, r: seq<real>, x: seq<real>)
    requires Shaped(l, d, u, r) && NonSingular(l, d, u, r)
    ensures Solves(l, d, u, r, x) <==> Eliminated(l, d, u, r, x)
  {
    if Solves(l, d, u, r, x) {
      ForwardRows(l, d, u, r, x, |r|);
    }
    if Eliminated(l, d, u, r, x) {
      forall i | 0 <= i < |r|
        ensures RowHolds(l, d, u, r, x, i)
      {
        RowStep(l, d, u, r, x, i);
      }
    }
  }

  /** Back substitution has only one outcome: two solutions of the
      eliminated system agree from index k on. */
  lemma {:induction false} EliminatedAgreeFrom(l: seq<real>, d: seq<real>, u: seq<real>, r: seq<real>, x: seq<real>, y: seq<real>, k: nat)
    requires Shaped(l, d, u, r) && k < |r|
    requires Eliminated(l, d, u, r, x) && Eliminated(l, d, u, r, y)
    ensures forall j :: k <= j < |r| ==> x[j] == y[j]
    decreases |r| - k
  {
    assert EliminatedRow(l, d, u, r, x, k) && EliminatedRow(l, d, u, r, y, k);
    if k < |r| - 1 {
      EliminatedAgreeFrom(l, d, u, r, x, y, k + 1);
      var c := CPrime(l, d, u, r, k);
      assert c * x[k + 1] == c * y[k + 1];
    }
  }

  /** Under non-zero pivots the tridiagonal system has at most one solution. */
  lemma SolutionUnique(l: seq<real>, d: seq<real>, u: seq<real>, r: seq<real>, x: seq<real>, y: seq<real>)
    requires Shaped(l, d, u, r) && NonSingular(l, d, u, r)
    requires Solves(l, d, u, r, x) && Solves(l, d, u, r, y)
    ensures x == y
  {
    EliminationPreservesSolutions(l, d, u, r, x);
    EliminationPreservesSolutions(l, d, u, r, y);
    EliminatedAgreeFrom(l, d, u, r, x, y, 0);
  }

  /** Two systems of size n that agree on the band the solver reads:
      l[0..n-2], d[0..n-1] and u[0..n-2]. */
  predicate SameBand(l: seq<real>, d: seq<real>, u: seq<real>, l': seq<real>, d': seq<real>, u': seq<real>, n: nat)
    requires |d| >= n && |l| >= n - 1 && |u| >= n - 1
    requires |d'| >= n && |l'| >= n - 1 && |u'| >= n - 1
  {
    (forall i :: 0 <= i < n ==> d[i] == d'[i]) &&
    (forall i :: 0 <= i < n - 1 ==> l[i] == l'[i] && u[i] == u'[i])
  }

  /** The pivots, and so the eliminated coefficients, read nothing outside
      the band. */
  lemma {:induction false} PivotReadsOnlyBand(l: seq<real>, d: seq<real>, u: seq<real>, l': seq<real>, d': seq<real>, u': seq<real>, r: seq<real>, i: nat)
    requires Shaped(l, d, u, r) && Shaped(l', d', u', r) && i < |r|
    requires SameBand(l, d, u, l', d', u', |r|)
    ensures Pivot(l, d, u, r, i) == Pivot(l', d', u', r, i)
    ensures i < |r| - 1 ==> CPrime(l, d, u, r, i) == CPrime(l', d', u', r, i)
    ensures RPrime(l, d, u, r, i) == RPrime(l', d', u', r, i)
  {
    if i > 0 {
      PivotReadsOnlyBand(l, d, u, l', d', u', r, i - 1);
    }
  }

  /** The solver's outcome depends only on l[0..n-2], d[0..n-1], u[0..n-2]
      and r: systems that agree there are non-singular together, and their
      solutions coincide. In particular u[n-1] is never read. */
  lemma SolutionReadsOnlyBand(l: seq<real>, d: seq<real>, u: seq<real>, l': seq<real>, d': seq<real>, u': seq<real>,
                              r: seq<real>, x: seq<real>, x': seq<real>)
    requires Shaped(l, d, u, r) && Shaped(l', d', u', r)
    requires SameBand(l, d, u, l', d', u', |r|)
    ensures NonSingular(l, d, u, r) <==> NonSingular(l', d', u', r)
    ensures NonSingular(l, d, u, r) && Solves(l, d, u, r, x) && Solves(l', d', u', r, x') ==> x == x'
  {
    forall i | 0 <= i < |r|
      ensures Pivot(l, d, u, r, i) == Pivot(l', d', u', r, i)
    {
      PivotReadsOnlyBand(l, d, u, l', d', u', r, i);
    }
    if NonSingular(l, d, u, r) && Solves(l, d, u, r, x) && Solves(l', d', u', r, x') {
      forall i | 0 <= i < |r|
        ensures RowHolds(l, d, u, r, x', i)
      {
        assert RowHolds(l', d', u', r, x', i);
      }
      SolutionUnique(l, d, u, r, x, x');
    }
  }

  function Abs(a: real): (m: real)
    ensures m >= 0.0 && (m == a || m == -a)
  {
    if a < 0.0 then -a else a
  }

  /** Every row's diagonal entry outweighs its off-diagonal entries. */
  predicate DiagonallyDominant(l: seq<real>, d: seq<real>, u: seq<real>, r: seq<real>)
    requires Shaped(l, d, u, r)
  {
    forall i :: 0 <= i < |r| ==>
      Abs(d[i]) > (if i == 0 then 0.0 else Abs(l[i - 1])) + (if i == |r| - 1 then 0.0 else Abs(u[i]))
  }

  /** |l * c| <= |l| when |c| < 1. */
  lemma ProductBound(li: real, c: real)
    requires Abs(c) < 1.0
    ensures Abs(li * c) <= Abs(li)
  {
    var a, b := Abs(li), Abs(c);
    assert Abs(li * c) == a * b by {
      if li < 0.0 { assert li * c == -(a * c); } else { assert li * c == a * c; }
      if c < 0.0 { assert a * c == -(a * b); } else { assert a * c == a * b; }
    }
    assert a * b <= a * 1.0 by { assert a * (1.0 - b) >= 0.0; }
  }

  /** The eliminated pivot d - l * c keeps more weight than the row's
      super-diagonal entry when |c| < 1 and the row is dominant. */
  lemma PivotBound(di: real, li: real, c: real, upper: real, p: real)
    requires Abs(c) < 1.0 && Abs(di) > Abs(li) + upper && p == di - li * c
    ensures Abs(p) > upper
  {
    ProductBound(li, c);
  }

  /** |a / p| < 1 when |a| < |p|. */
  lemma QuotientBound(a: real, p: real)
    requires Abs(a) < Abs(p)
    ensures p != 0.0 && Abs(a / p) < 1.0
  {
    var q := a / p;
    assert q * p == a;
    if p > 0.0 {
      PositiveQuotientBound(a, p);
    } else {
      PositiveQuotientBound(-a, -p);
      assert -a / -p == q;
    }
  }

  lemma PositiveQuotientBound(a: real, p: real)
    requires p > 0.0 && -p < a < p
    ensures -1.0 < a / p < 1.0
  {
    var q := a / p;
    assert q * p == a;
    assert (q - 1.0) * p < 0.0;
    assert (q + 1.0) * p > 0.0;
  }

  /** Under strict diagonal dominance every pivot outweighs its row's
      super-diagonal entry, so |c'[i]| < 1 and no pivot is zero. */
  lemma {:induction false} DominantPivot(l: seq<real>, d: seq<real>, u: seq<real>, r: seq<real>, i: nat)
    requires Shaped(l, d, u, r) && DiagonallyDominant(l, d, u, r) && i < |r|
    ensures Abs(Pivot(l, d, u, r, i)) > (if i == |r| - 1 then 0.0 else Abs(u[i]))
    ensures i < |r| - 1 ==> Abs(CPrime(l, d, u, r, i)) < 1.0
  {
    if i > 0 {
      DominantPivot(l, d, u, r, i - 1);
    }
    DominantRow(l, d, u, r, i);
    DominantCPrime(l, d, u, r, i, Pivot(l, d, u, r, i));
  }

  /** Row i's pivot outweighs its super-diagonal entry, given |c'[i-1]| < 1. */
  lemma DominantRow(l: seq<real>, d: seq<real>, u: seq<real>, r: seq<real>, i: nat)
    requires Shaped(l, d, u, r) && DiagonallyDominant(l, d, u, r) && i < |r|
    requires i > 0 ==> Abs(CPrime(l, d, u, r, i - 1)) < 1.0
    ensures Abs(Pivot(l, d, u, r, i)) > (if i == |r| - 1 then 0.0 else Abs(u[i]))
  {
    var upper := if i == |r| - 1 then 0.0 else Abs(u[i]);
    var lower := if i == 0 then 0.0 else Abs(l[i - 1]);
    assert Abs(d[i]) > lower + upper;
    if i > 0 {
      LaterPivotBound(l, d, u, r, i, upper);
    }
  }

  lemma LaterPivotBound(l: seq<real>, d: seq<real>, u: seq<real>, r: seq<real>, i: nat, upper: real)
    requires Shaped(l, d, u, r) && 0 < i < |r|
    requires Abs(CPrime(l, d, u, r, i - 1)) < 1.0 && Abs(d[i]) > Abs(l[i - 1]) + upper
    ensures Abs(Pivot(l, d, u, r, i)) > upper
  {
    PivotBound(d[i], l[i - 1], CPrime(l, d, u, r, i - 1), upper, Pivot(l, d, u, r, i));
  }

  /** c'[i] = u[i] / p is below 1 in magnitude once |p| > |u[i]|. */
  lemma DominantCPrime(l: seq<real>, d: seq<real>, u: seq<real>, r: seq<real>, i: nat, p: real)
    requires Shaped(l, d, u, r) && i < |r|
    requires p == Pivot(l, d, u, r, i) && Abs(p) > (if i == |r| - 1 then 0.0 else Abs(u[i]))
    ensures i < |r| - 1 ==> Abs(CPrime(l, d, u, r, i)) < 1.0
  {
    if i < |r| - 1 {
      QuotientBound(u[i], p);
    }
  }

  /** A strictly diagonally dominant system never meets a zero pivot. */
  lemma DominantIsNonSingular(l: seq<real>, d: seq<real>, u: seq<real>, r: seq<real>)
    requires Shaped(l, d, u, r) && DiagonallyDominant(l, d, u, r)
    ensures NonSingular(l, d, u, r)
  {
    forall i | 0 <= i < |r|
      ensures Pivot(l, d, u, r, i) != 0.0
    {
      DominantPivot(l, d, u, r, i);
    }
  }

  /** Row i of the eliminated system reads only x[i] and x[i+1]. */
  lemma EliminatedRowFrame(l: seq<real>, d: seq<real>, u: seq<real>, r: seq<real>, x: seq<real>, y: seq<real>, i: nat)
    requires Shaped(l, d, u, r) && |x| == |r| && |y| == |r| && i < |r|
    requires x[i] == y[i] && (i < |r| - 1 ==> x[i + 1] == y[i + 1])
    ensures EliminatedRow(l, d, u, r, x, i) == EliminatedRow(l, d, u, r, y, i)
  {
  }

  /** One step of back substitution: writing x[j] = r'[j] - c'[j] * x[j+1]
      extends the eliminated rows already satisfied from j + 1 on to j. */
  lemma BackStep(l: seq<real>, d: seq<real>, u: seq<real>, r: seq<real>, before: seq<real>,
                 c: real, rho: real, next: real, v: real, after: seq<real>, j: nat)
    requires Shaped(l, d, u, r) && |before| == |r| && j < |r| - 1
    requires forall k :: j < k < |r| ==> EliminatedRow(l, d, u, r, before, k)
    requires c == CPrime(l, d, u, r, j) && rho == RPrime(l, d, u, r, j)
    requires next == before[j + 1] && v == rho - c * next && after == before[j := v]
    ensures forall k :: j <= k < |r| ==> EliminatedRow(l, d, u, r, after, k)
  {
    forall k | j < k < |r|
      ensures EliminatedRow(l, d, u, r, after, k)
    {
      EliminatedRowFrame(l, d, u, r, before, after, k);
    }
  }

  /** One row of forward elimination, from the previous row's c'[i-1] and
      r'[i-1]: the pivot d[i] - l[i-1] * c'[i-1], then c'[i] and r'[i]. */
  lemma ForwardStep(l: seq<real>, d: seq<real>, u: seq<real>, r: seq<real>, i: nat, cPrev: real, rhoPrev: real)
    requires Shaped(l, d, u, r) && NonSingular(l, d, u, r) && 0 < i < |r|
    requires cPrev == CPrime(l, d, u, r, i - 1) && rhoPrev == RPrime(l, d, u, r, i - 1)
    ensures d[i] - l[i - 1] * cPrev == Pivot(l, d, u, r, i) != 0.0
    ensures i < |r| - 1 ==> u[i] / (d[i] - l[i - 1] * cPrev) == CPrime(l, d, u, r, i)
    ensures (r[i] - l[i - 1] * rhoPrev) / (d[i] - l[i - 1] * cPrev) == RPrime(l, d, u, r, i)
  {
  }

  /** The forward-elimination pass of the Thomas algorithm: normalises row
      0 by d[0], then for each later row computes the pivot
      d[i] - l[i-1] * c'[i-1] and from it c'[i] (every row but the last)
      and r'[i]. Returns the contents of the scratch vectors c_prime
      (n - 1 entries) and r_prime (n entries). */
  method ForwardEliminate(l: seq<real>, d: seq<real>, u: seq<real>, r: seq<real>)
    returns (cs: seq<real>, rs: seq<real>)
    requires Shaped(l, d, u, r)
    requires NonSingular(l, d, u, r)
    ensures |cs| == |r| - 1 && |rs| == |r|
    ensures forall k :: 0 <= k < |r| - 1 ==> cs[k] == CPrime(l, d, u, r, k)
    ensures forall k :: 0 <= k < |r| ==> rs[k] == RPrime(l, d, u, r, k)
  {
    var n := |r|;
    var cPrime := new real[n - 1];
    var rPrime := new real[n];

    assert Pivot(l, d, u, r, 0) != 0.0;
    cPrime[0] := u[0] / d[0];
    rPrime[0] := r[0] / d[0];

    var i := 1;
    while i < n
      invariant 1 <= i <= n
      invariant forall k :: 0 <= k < i && k < n - 1 ==> cPrime[k] == CPrime(l, d, u, r, k)
      invariant forall k :: 0 <= k < i ==> rPrime[k] == RPrime(l, d, u, r, k)
    {
      var cPrev, rhoPrev := cPrime[i - 1], rPrime[i - 1];
      ForwardStep(l, d, u, r, i, cPrev, rhoPrev);
      var temp := d[i] - l[i - 1] * cPrev;
      if i < n - 1 {
        cPrime[i] := u[i] / temp;
      }
      rPrime[i] := (r[i] - l[i - 1] * rhoPrev) / temp;
      i := i + 1;
    }
    cs, rs := cPrime[..], rPrime[..];
  }

  /** The back-substitution pass of the Thomas algorithm:
      x[n-1] = r'[n-1], then x[i] = r'[i] - c'[i] * x[i+1] for i from n - 2
      down to 0. Its result solves the eliminated system. */
  method BackSubstitute(l: seq<real>, d: seq<real>, u: seq<real>, r: seq<real>, cs: seq<real>, rs: seq<real>)
    returns (x: seq<real>)
    requires Shaped(l, d, u, r)
    requires |cs| == |r| - 1 && |rs| == |r|
    requires forall k :: 0 <= k < |r| - 1 ==> cs[k] == CPrime(l, d, u, r, k)
    requires forall k :: 0 <= k < |r| ==> rs[k] == RPrime(l, d, u, r, k)
    ensures Eliminated(l, d, u, r, x)
  {
    var n := |r|;
    var xs := new real[n];
    xs[n - 1] := rs[n - 1];
    var j := n - 2;
    while j >= 0
      invariant -1 <= j <= n - 2
      invariant forall k :: j < k < n ==> EliminatedRow(l, d, u, r, xs[..], k)
    {
      ghost var before := xs[..];
      var c, rho, next := cs[j], rs[j], xs[j + 1];
      var v := rho - c * next;
      xs[j] := v;
      BackStep(l, d, u, r, before, c, rho, next, v, xs[..], j);
      j := j - 1;
    }
    x := xs[..];
  }

  /** Solves a tridiagonal system by the Thomas algorithm: forward
      elimination, then back substitution. The pivots are never checked: a
      non-zero pivot in every row is the caller's obligation. The inputs
      are values and are left as they were. */
  method ThomasAlgo(l: seq<real>, d: seq<real>, u: seq<real>, r: seq<real>) returns (x: seq<real>)
    requires Shaped(l, d, u, r)
    requires NonSingular(l, d, u, r)
    ensures Eliminated(l, d, u, r, x)
    ensures Solves(l, d, u, r, x)
  {
    var cs, rs := ForwardEliminate(l, d, u, r);
    x := BackSubstitute(l, d, u, r, cs, rs);
    EliminationPreservesSolutions(l, d, u, r, x);
  }
}
